=== FILE: README.md ===
# uPools pool state machine, in Dafny

uPools recycles expensive Unity objects instead of destroying and recreating
them. Four pool classes implement the same state machine:

- `GameObjectPool` clones a template synchronously.
- `AddressableGameObjectPool` loads by an Addressables key and waits for the load to finish.
- `AsyncAddressableGameObjectPool` loads by key and awaits the load, which can be cancelled.
- `AsyncObjectPoolBase<T>` is generic and asynchronous. A derived class supplies creation and may override the hooks.

Every class keeps four pieces of state:

- a LIFO stack of free objects;
- the set of rented objects;
- the set of all managed objects;
- a one-shot disposed flag.

All of them implement Rent, Return, Prewarm, Clear and Dispose with the same steps. Only the order of those steps
and the callbacks around them differ between classes.

This project models that state machine once. `PoolCore.Pool` is an immutable
record with these fields:

- the stack as a `seq` (top at the end);
- the two sets;
- the flag;
- a `nextFresh` counter. The factory always creates `Own(nextFresh)`, so an object it creates is never one the pool already knows. A handle is either `Own(n)`, the n-th object this pool created, or `Foreign(id)`, any other object a caller can pass to `Return`. A caller can only hold `Own(n)` with `n < nextFresh`; other `Own` arguments model no program state. That includes a GameObject made elsewhere and an object created by a different pool, which each pool's model sees as foreign;
- a `destroyed` log of teardown calls: `Object.Destroy`, `Addressables.ReleaseInstance` or `OnDestroy`;
- a `notices` log of the callbacks fired. Each notice records the stack, rented set and managed set that the callback could observe.

Every operation is a pure function that returns a `Step`, which holds the
resulting pool and either a value or the exception raised:

- `ObjectDisposed`;
- `ArgumentNull(param)`;
- `OperationCanceled`.

So an error path can be shown to leave the pool unchanged. A cancelled
`PrewarmAsync` can also be shown to keep the work it committed. An awaited
creation is modelled by a `Cancellation` token, `NotCancelled` or
`CancelledAfter(k)`: within one call, the first k creations complete and every
later one is abandoned.

Three accessors have no row of their own in the table below. `PoolCore.Count` returns the height of the free stack, `|p.stack|`, and `PoolCore.RentedObjects` and `PoolCore.AllObjects` each return a field. `GameObjectPools.PrewarmEmpty` and `AsyncPoolBase.CountIncludesDuplicates` state what they mean.

Clear enumerates the rented set in an order the source leaves unspecified
(`rentedItems.ToArray()`). It is therefore a method that picks elements one at a
time, and Dispose is a method too.

The invariant `PoolCore.Valid` has four parts:

- no object is free twice;
- free and rented objects are disjoint;
- the managed set is exactly the free objects plus the rented ones;
- every managed object is one this pool created, with a serial below `nextFresh`.

Only the third part is written down in uPools itself, in the doc comment of
`IObjectPool.GetAllObjects` ("both available and rented"). Rent, Prewarm and
Clear preserve the whole invariant. Return preserves it when the object
returned is currently rented; that precondition is a choice of this model,
since `Return` has no doc comment and checks nothing. It always pushes, and
`DoubleReturnBreaksDisjointness` shows what a double return does.
`ReturnForeignBreaksValid` and `ForeignReturnScenario` show what returning an
object the pool did not create does: it is pushed and handed out again, but
never becomes managed.

Modules:

- `PoolCore` (pool_core.dfy): the state, the invariant, the primitive steps, the prewarm loops, Clear, Dispose and the accessors.
- `GameObjectPools` (game_object_pools.dfy): `GameObjectPool` and `AddressableGameObjectPool`, whose state logic is identical. This module also holds the two Addressables constructors, which `AsyncAddressableGameObjectPool` repeats word for word (AsyncAddressableGameObjectPool.cs:14-24).
- `AsyncAddressablePool` (async_addressable_pool.dfy): `RentAsync` and `PrewarmAsync`. Its `Return` is the same code as `GameObjectPools.Return`, and Clear and Dispose are the ones in `PoolCore`.
- `AsyncPoolBase` (async_pool_base.dfy): `AsyncObjectPoolBase<T>`.

Callback order and cancellation, as the code has them:

- In the three GameObject pools, `Return` and `Prewarm` push the object and only then call `PoolCallbackHelper`.
- `AsyncObjectPoolBase` calls its hooks before the push.
- The fourth `RentAsync` overload of `AsyncAddressableGameObjectPool` (pose and parent) takes no cancellation token. Its creation therefore cannot be cancelled, unlike the other three overloads.

## Model

| member | source | states |
|---|---|---|
| PoolCore.AvailableObjects | Assets/uPools/Runtime/GameObjectPool.cs:165 | The free objects are listed in pop order, element for element: the i-th entry is the i-th object from the top. The list is as long as `Count` and has the same multiset as the stack, so an object returned twice is listed twice. Its first element is the one the next Rent pops. |
| PoolCore.WarmOne | Assets/uPools/Runtime/GameObjectPool.cs:141-147 | One prewarm iteration adds exactly the next fresh object to the managed set and the top of the stack. Rented, teardown, source and the flag are untouched. |
| PoolCore.WarmOneAnnounces | Assets/uPools/Runtime/External/UniTask/AsyncObjectPoolBase.cs:78-82 | The GameObject pools announce a prewarmed object after the push. The generic pool fires OnReturn, then the receiver's OnReturn, both seeing the stack before the push. |
| PoolCore.WarmShape | Assets/uPools/Runtime/GameObjectPool.cs:139-148 | Running the prewarm loop n times leaves the old stack below n new objects, which are the next n fresh handles in creation order. Those objects join the managed set. Rented, teardown and the flag are untouched. |
| PoolCore.WarmPreservesValid | Assets/uPools/Runtime/GameObjectPool.cs:139-148 | Prewarming a valid pool keeps it valid, and none of the pushed objects was managed before. |
| PoolCore.WarmAsyncCommitsCompleted | Assets/uPools/Runtime/External/Addressables/AsyncAddressableGameObjectPool.cs:149-158 | The cancellable prewarm loop commits exactly the creations the token lets complete, the same as the uncancellable loop run that many times. |
| PoolCore.WarmAsyncReportsCancellation | Assets/uPools/Runtime/External/UniTask/AsyncObjectPoolBase.cs:76-83 | The cancellable prewarm loop ends with OperationCanceled exactly when the token abandoned a creation before the requested count was reached, and succeeds otherwise. |
| PoolCore.TeardownCoversManaged | Assets/uPools/Runtime/External/Addressables/AddressableGameObjectPool.cs:128-140 | On a valid pool, releasing the stack from the top and then the rented set reaches every managed object exactly once (as multisets). |
| PoolCore.PopAll | Assets/uPools/Runtime/GameObjectPool.cs:120-123 | Draining the stack with TryPop meets the free objects top first: the reverse of the stack. |
| PoolCore.Enumerate | Assets/uPools/Runtime/GameObjectPool.cs:126-129 | Iterating a snapshot of the rented set meets each rented object exactly once. |
| PoolCore.Clear | Assets/uPools/Runtime/GameObjectPool.cs:116-133 | A disposed pool fails with ObjectDisposed and is unchanged. Otherwise the teardown log grows by the free objects top first, then by each rented object once. Stack, rented and managed become empty, and nothing else changes, so the pool stays usable. On a valid pool every managed object is torn down exactly once. |
| PoolCore.Dispose | Assets/uPools/Runtime/GameObjectPool.cs:151-156 | Dispose fails on an already disposed pool and leaves it unchanged. Otherwise it does the teardown Clear does, empties the three collections and sets the disposed flag. |
| GameObjectPools.NewGameObjectPool | Assets/uPools/Runtime/GameObjectPool.cs:10-14 | The constructor fails with ArgumentNull("original") exactly when the template is null. Otherwise it gives an empty, valid, undisposed pool that clones that template. |
| GameObjectPools.NewAddressablePool | Assets/uPools/Runtime/External/Addressables/AddressableGameObjectPool.cs:12-16 | The constructor fails with ArgumentNull("key") exactly when the key is null. Otherwise it gives an empty, valid pool that loads by that key. |
| GameObjectPools.NewAddressablePoolFromReference | Assets/uPools/Runtime/External/Addressables/AddressableGameObjectPool.cs:18-22 | The constructor fails with ArgumentNull("reference") exactly when the reference is null. Otherwise it gives the same pool as constructing from the reference's runtime key. |
| GameObjectPools.Rent | Assets/uPools/Runtime/GameObjectPool.cs:25-42 | A disposed pool fails and is unchanged. On a hit, Rent returns the top of the stack, which is popped and rented; the managed set is unchanged. On a miss, it returns an object the valid pool did not manage, now both managed and rented. Nothing is torn down. PoolCallbackHelper's OnRent fires once and sees the final state. Validity is preserved. |
| GameObjectPools.Return | Assets/uPools/Runtime/GameObjectPool.cs:105-114 | A disposed pool fails and is unchanged. Otherwise the object leaves the rented set and is pushed on top. Nothing is torn down and the managed set is unchanged. The source and the disposed flag are unchanged. OnReturn fires after the push. Validity is preserved when the object was rented. |
| GameObjectPools.Prewarm | Assets/uPools/Runtime/GameObjectPool.cs:135-149 | A disposed pool fails. A count of zero or less changes nothing. Otherwise Count grows by the count, the old stack stays underneath, the managed set grows by exactly the pushed objects, and rented, teardown, the source and the disposed flag are unchanged. |
| GameObjectPools.PrewarmPreservesValid | Assets/uPools/Runtime/External/Addressables/AddressableGameObjectPool.cs:147-156 | Prewarm keeps a valid pool valid, and every object it pushes is one the pool did not manage before. |
| GameObjectPools.DisposedRejectsEverything | Assets/uPools/Runtime/GameObjectPool.cs:158-161 | On a disposed pool, Rent, Return and Prewarm all fail with ObjectDisposed and leave the pool unchanged. |
| GameObjectPools.RentOverloadsAgree | Assets/uPools/Runtime/GameObjectPool.cs:44-103 | The four Rent overloads have the same effect on the pool and return the same object. |
| GameObjectPools.ReturnThenRentReuses | Assets/uPools/Runtime/GameObjectPool.cs:109-110 | LIFO reuse: Rent right after Return(h) returns h, restores the stack and managed set, and restores rented if h was rented. |
| GameObjectPools.RentThenReturnRestores | Assets/uPools/Runtime/External/Addressables/AddressableGameObjectPool.cs:113-122 | Returning the object just rented from a valid pool restores the rented set. After a hit the stack and managed set are also as before. After a miss the new object is alone on the stack and stays managed. |
| GameObjectPools.DoubleReturnBreaksDisjointness | Assets/uPools/Runtime/GameObjectPool.cs:105-110 | Returning a rented object twice raises Count by two and makes the pool invalid. The next Rent hands the object out while a copy is still on the free stack. |
| GameObjectPools.ReturnForeignBreaksValid | Assets/uPools/Runtime/GameObjectPool.cs:105-110 | Returning an object the pool did not create puts it on top of the free stack. When the pool was valid, the object is not added to the managed set and nothing leaves the rented set. Either way the pool is no longer valid. |
| GameObjectPools.ForeignReturnScenario | Assets/uPools/Runtime/GameObjectPool.cs:25-42 | Scenario on a new pool. Return(F) of a foreign F, then Rent hands out F, and the next Rent misses and creates the pool's first object. Both are rented, and only the created one is managed. |
| GameObjectPools.PrewarmEmpty | Assets/uPools/Runtime/External/Addressables/AddressableGameObjectPool.cs:143-157 | Prewarm(n) on an empty pool gives Count n, n managed objects and nothing rented. |
| GameObjectPools.RentAfterClearCreates | Assets/uPools/Runtime/External/Addressables/AddressableGameObjectPool.cs:33-50 | On the emptied, undisposed pool that Clear leaves, Rent succeeds by creating a new object, which is then the only managed object. The pool is valid. |
| GameObjectPools.RentReturnRentScenario | Assets/uPools/Runtime/GameObjectPool.cs:29-41 | Scenario on a new pool. Rent creates A, with managed {A}, rented {A} and an empty stack. Return(A) leaves managed {A}, rented {} and stack [A]. Rent then returns A again. |
| AsyncAddressablePool.RentAsync | Assets/uPools/Runtime/External/Addressables/AsyncAddressableGameObjectPool.cs:35-113 | A disposed pool fails. A hit pops and rents the top object without consulting the token. A miss whose creation is cancelled fails with OperationCanceled and leaves the pool exactly as it was. An uncancelled miss returns a new object that is managed and rented. Every success keeps the source and the disposed flag. Validity is preserved. |
| AsyncAddressablePool.PrewarmAsync | Assets/uPools/Runtime/External/Addressables/AsyncAddressableGameObjectPool.cs:145-159 | The result equals the plain prewarm loop run for as many creations as the token allowed. The call reports OperationCanceled exactly when fewer than the requested count completed. |
| AsyncAddressablePool.UncancelledRentAsyncIsRent | Assets/uPools/Runtime/External/Addressables/AsyncAddressableGameObjectPool.cs:35-52 | With a token that never cancels, RentAsync is the synchronous Rent. |
| AsyncAddressablePool.TokenIrrelevantWhenNotAwaited | Assets/uPools/Runtime/External/Addressables/AsyncAddressableGameObjectPool.cs:94-113 | On a hit, or with the pose-and-parent overload, which has no token, the token cannot change RentAsync's outcome. |
| AsyncAddressablePool.ReturnThenRentAsyncReuses | Assets/uPools/Runtime/External/Addressables/AsyncAddressableGameObjectPool.cs:115-124 | After a synchronous Return(h), the next RentAsync returns h whatever the token, and the stack is as before. |
| AsyncAddressablePool.CancelledPrewarmKeepsCompleted | Assets/uPools/Runtime/External/Addressables/AsyncAddressableGameObjectPool.cs:149-158 | A prewarm cancelled after k creations reports OperationCanceled and keeps exactly k new objects: free, managed (the managed set grows by k) and not rented. There is no rollback, and the pool stays valid. |
| AsyncAddressablePool.UncancelledPrewarmAsyncIsPrewarm | Assets/uPools/Runtime/External/Addressables/AsyncAddressableGameObjectPool.cs:145-158 | With a token that never cancels, PrewarmAsync is the synchronous Prewarm. |
| AsyncAddressablePool.CancelledPrewarmScenario | Assets/uPools/Runtime/External/Addressables/AsyncAddressableGameObjectPool.cs:147-158 | Scenario: PrewarmAsync(3) on a new pool, with the token cancelled after two creations. It ends with two free, managed objects, none rented, and reports the cancellation. |
| AsyncPoolBase.NewPool | Assets/uPools/Runtime/External/UniTask/AsyncObjectPoolBase.cs:13-16 | A derived pool starts empty, valid and undisposed. |
| AsyncPoolBase.RentAsync | Assets/uPools/Runtime/External/UniTask/AsyncObjectPoolBase.cs:23-42 | A disposed pool fails. A hit pops and rents the top object and leaves the managed set unchanged. A cancelled miss changes nothing. An uncancelled miss returns a new object that is managed and rented. When it succeeds, OnRent and then the receiver's OnRent fire, both seeing the object rented. Every success keeps the source and the disposed flag. Validity is preserved. |
| AsyncPoolBase.Return | Assets/uPools/Runtime/External/UniTask/AsyncObjectPoolBase.cs:44-53 | The disposed check comes before the null check. Null fails with ArgumentNull("obj") and changes nothing. Otherwise the object leaves rented and is pushed. OnReturn and then the receiver's OnReturn fire while the object is out of rented and not yet on the stack. The source and the disposed flag are unchanged. Validity is preserved for a rented object. |
| AsyncPoolBase.PrewarmAsync | Assets/uPools/Runtime/External/UniTask/AsyncObjectPoolBase.cs:73-84 | The result equals the hook-style prewarm loop run for as many creations as the token allowed. Each object is managed, announced and pushed before the next creation. OperationCanceled is reported exactly when the loop was cut short. |
| AsyncPoolBase.DisposedRejectsEverything | Assets/uPools/Runtime/External/UniTask/AsyncObjectPoolBase.cs:96-99 | On a disposed pool, RentAsync, Return (even of null) and PrewarmAsync fail with ObjectDisposed and change nothing. |
| AsyncPoolBase.ReturnThenRentAsyncReuses | Assets/uPools/Runtime/External/UniTask/AsyncObjectPoolBase.cs:28-34 | After Return(h), the next RentAsync returns h whatever the token. The stack is restored, and rented is restored when h was rented. |
| AsyncPoolBase.CancelledPrewarmIsShorterPrewarm | Assets/uPools/Runtime/External/UniTask/AsyncObjectPoolBase.cs:76-83 | A prewarm cancelled after k creations leaves the pool exactly as an uncancelled prewarm of k objects would, and reports OperationCanceled. |
| AsyncPoolBase.CountIncludesDuplicates | Assets/uPools/Runtime/External/UniTask/AsyncObjectPoolBase.cs:86 | Count is the height of the stack, duplicates included. Returning a rented object twice raises Count by two, while the distinct free objects grow by one. |

## Left out

- Unity engine effects are left out: `SetActive`, `transform.SetParent`, `SetPositionAndRotation` and the work inside `Object.Instantiate`. On a live object they do not change pool membership; the next line covers a destroyed one. Creation is the `Own(nextFresh)` oracle, and teardown is an entry in the `destroyed` log. The log does not model Unity's deferred `Object.Destroy`.
- Objects destroyed outside the pool are left out. This covers an object destroyed by a scene unload or by user code, and an object that reaches `Return` after `Clear` has destroyed it. Unity's `SetActive` throws on such an object. On a hit, Rent has already popped it (`stack.TryPop`) when `SetActive(true)` throws, and never reaches `rentedItems.Add`, so the object is lost: neither free nor rented (GameObjectPool.cs:29,36,39; AddressableGameObjectPool.cs:37,44,47; AsyncAddressableGameObjectPool.cs:39,46,49; the same in the other overloads). Return throws after its push (GameObjectPool.cs:110-111), leaving the dead object on the free stack. The model treats every handle as alive, so Rent after such a Return succeeds here where the program throws.
- Placement payloads are left out. The `Vector3`, `Quaternion` and `Transform` arguments of the Rent overloads are floating-point or engine values that only reach the transform. `Placement` keeps only which overload was called.
- Addressables internals are left out: `InstantiateAsync`, `WaitForCompletion` and the reference counting behind `ReleaseInstance`. They are foreign library calls.
- Creation or teardown failures are left out. An exception from `Instantiate`, `InstantiateAsync`, `CreateInstanceAsync`, `Destroy`, `ReleaseInstance` or `OnDestroy` is not modelled; the only failed creation in the model is a cancelled one.
- UniTask scheduling is left out. Other pool calls that run while a `RentAsync` or `PrewarmAsync` is suspended are not modelled: for example, a `Dispose` issued mid-await, where the disposed flag is checked only at entry. That behaviour is about concurrency, not the sequential state machine. A `CancellationToken` is reduced to how many creations of one call complete.
- PoolCallbackHelper's body is not part of this model. Neither is the question of whether an instance implements `IPoolCallbackReceiver`. A notice marks where the pool dispatches a callback.
- Callbacks are assumed not to touch pool state. An `OnRent`, `OnReturn` or `OnDestroy` override in a class derived from `AsyncObjectPoolBase` can reach the `protected` collections (AsyncObjectPoolBase.cs:13-15), and the model does not cover that.
- Exceptions thrown by callbacks are left out. In `AsyncObjectPoolBase` the hooks run after `rentedItems.Remove` (Return) or `allManagedObjects.Add` (PrewarmAsync) but before `stack.Push` (AsyncObjectPoolBase.cs:49-52, 79-82). A throwing `OnReturn` override or receiver therefore leaves the object managed but neither free nor rented, and `Clear` (58-67) never calls `OnDestroy` on it. In the GameObject pools a throwing `PoolCallbackHelper` call comes after the state change and leaves a consistent state.
- Object identity across pools is left out. Each pool is modelled on its own: an object that pool A created is `Foreign` when returned to pool B, and B's `Return` removes nothing from B's rented set for it, as `HashSet.Remove` of an absent object does. No model states facts about two pools at once.
- The accessors `GetAllObjects`, `GetRentedObjects` and `GetAvailableObjects` return the live `HashSet` and `Stack` themselves (GameObjectPool.cs:163-165, AsyncObjectPoolBase.cs:100-102). A caller that keeps the collection sees later changes, and one that calls Rent or Return while enumerating it gets `InvalidOperationException`. `PoolCore.AllObjects`, `PoolCore.RentedObjects` and `PoolCore.AvailableObjects` give the contents at the time of the call only.
- Return(null) on the three GameObject pools is left out, so their handles are never null in the model. Their `Return` has no null check: `rentedItems.Remove(null)` and `stack.Push(null)` both succeed, so Count grows by one with a null on the free stack, and only then does `obj.SetActive(false)` throw NullReferenceException (GameObjectPool.cs:109-111, AddressableGameObjectPool.cs:117-119, AsyncAddressableGameObjectPool.cs:119-121). Unity's destroyed-object "fake null" for the template is also not modelled.
- An overriding `Dispose` or `CreateInstanceAsync` in a class derived from `AsyncObjectPoolBase` is left out. The model covers the base class's own code, and creation by a derived class is the fresh-handle oracle, abandoned exactly when the token says so.
- IObjectPool.cs and IAsyncObjectPool.cs declare signatures only. Their doc comments support one part of `PoolCore.Valid`: the managed set is the free objects plus the rented ones. The other parts follow from the pool code under the model's choice that callers return only objects they rented.

=== FILE: async_addressable_pool.dfy ===
/** `AsyncAddressableGameObjectPool`: the keyed pool whose creations are
    awaited and may be cancelled. Return, Clear and Dispose are synchronous and
    are the same code as in the synchronous pools (`GameObjectPools.Return`,
    `PoolCore.Clear`, `PoolCore.Dispose`); so are the two constructors
    (`GameObjectPools.NewAddressablePool` and
    `GameObjectPools.NewAddressablePoolFromReference`). */
module AsyncAddressablePool {
  import opened PoolCore
  import opened GameObjectPools

  /** Whether the creation awaited on a miss observes the caller's token. The
      overload taking a pose and a parent has no token parameter, so nothing
      can cancel its creation. */
  predicate Cancellable(placement: Placement)
  {
    !placement.AtPoseUnderParent?
  }

  /** `RentAsync`, all four overloads. A hit completes without awaiting and so
      never looks at the token. A miss awaits the creation before touching any
      state, so a cancelled creation leaves the pool exactly as it was. */
  function RentAsync(p: Pool, placement: Placement, token: Cancellation): (s: Step<Handle>)
    ensures p.disposed ==> s == Step(p, Err(ObjectDisposed))
    ensures !p.disposed && |p.stack| > 0 ==>
              && s.out == Ok(Top(p.stack))
              && s.pool.stack == p.stack[..|p.stack| - 1]
              && s.pool.all == p.all
              && s.pool.rented == p.rented + {Top(p.stack)}
              && s.pool.nextFresh == p.nextFresh
    ensures !p.disposed && p.stack == [] && Cancellable(placement) && Abandons(token, 0) ==>
              s == Step(p, Err(OperationCanceled))
    ensures !p.disposed && p.stack == [] && !(Cancellable(placement) && Abandons(token, 0)) ==>
              && s.out.Ok?
              && s.pool.stack == []
              && s.pool.all == p.all + {s.out.value}
              && s.pool.rented == p.rented + {s.out.value}
              && s.pool.nextFresh == p.nextFresh + 1
              && (Valid(p) ==> s.out.value !in p.all)
    ensures s.out.Ok? ==>
              && s.pool.destroyed == p.destroyed
              && s.pool.disposed == p.disposed
              && s.pool.source == p.source
              && Announced(p, s.pool, [HelperOnRent], s.out.value, s.pool.stack, s.pool.rented, s.pool.all)
    ensures Valid(p) ==> Valid(s.pool)
  {
    if p.disposed then Step(p, Err(ObjectDisposed))
    else if |p.stack| > 0 then
      var h := Top(p.stack);
      Step(Notify(Take(Pop(p), h), HelperOnRent, h), Ok(h))
    else if Cancellable(placement) && Abandons(token, 0) then
      Step(p, Err(OperationCanceled))
    else
      var h := NewObject(p);
      Step(Notify(Take(Adopt(p), h), HelperOnRent, h), Ok(h))
  }

  /** `PrewarmAsync(count, token)`: create objects one at a time, committing
      each (managed, pushed, announced) before awaiting the next. When the
      token abandons a creation the loop stops with OperationCanceled, and
      the objects already committed stay. */
  function PrewarmAsync(p: Pool, count: int, token: Cancellation): (s: Step<()>)
    ensures p.disposed ==> s == Step(p, Err(ObjectDisposed))
    ensures !p.disposed ==>
              s.pool == Warm(p, Completed(token, if count > 0 then count else 0), ViaHelper)
    ensures !p.disposed ==>
              s.out == if Completed(token, if count > 0 then count else 0) < count
                       then Err(OperationCanceled) else Ok(())
  {
    if p.disposed then Step(p, Err(ObjectDisposed))
    else
      var n := if count > 0 then count else 0;
      WarmAsyncCommitsCompleted(p, 0, n, ViaHelper, token);
      WarmAsyncReportsCancellation(p, 0, n, ViaHelper, token);
      WarmAsync(p, 0, n, ViaHelper, token)
  }

  // ---------------------------------------------------------------------------
  // Properties

  /** With a token that is never cancelled, RentAsync behaves as the
      synchronous Rent. */
  lemma UncancelledRentAsyncIsRent(p: Pool, placement: Placement)
    ensures RentAsync(p, placement, NotCancelled) == Rent(p, placement)
  {
  }

  /** A hit never awaits, so the token cannot change its outcome; and the
      overload with a pose and a parent cannot be cancelled at all. */
  lemma TokenIrrelevantWhenNotAwaited(p: Pool, placement: Placement, t1: Cancellation, t2: Cancellation)
    requires |p.stack| > 0 || !Cancellable(placement)
    ensures RentAsync(p, placement, t1) == RentAsync(p, placement, t2)
  {
  }

  /** LIFO reuse: after Return(h), the next RentAsync hands back h whatever
      the token. */
  lemma ReturnThenRentAsyncReuses(p: Pool, h: Handle, placement: Placement, token: Cancellation)
    requires !p.disposed
    ensures RentAsync(Return(p, h).pool, placement, token).out == Ok(h)
    ensures RentAsync(Return(p, h).pool, placement, token).pool.stack == p.stack
  {
  }

  /** A prewarm cancelled after k completed creations keeps exactly those k new
      objects, free and managed, and rents nothing; there is no rollback. */
  lemma {:induction false} CancelledPrewarmKeepsCompleted(p: Pool, count: int, k: nat)
    requires Valid(p) && !p.disposed && k < count
    ensures var s := PrewarmAsync(p, count, CancelledAfter(k));
            && s.out == Err(OperationCanceled)
            && Count(s.pool) == Count(p) + k
            && s.pool.stack[..|p.stack|] == p.stack
            && s.pool.all == p.all + Elems(s.pool.stack[|p.stack|..])
            && |s.pool.all| == |p.all| + k
            && s.pool.rented == p.rented
            && Valid(s.pool)
  {
    var q := Warm(p, k, ViaHelper);
    WarmShape(p, k, ViaHelper);
    WarmPreservesValid(p, k, ViaHelper);
    var added := q.stack[|p.stack|..];
    assert q.stack[..|p.stack|] == p.stack;
    assert added == FreshRun(p.nextFresh, k);
    FreshRunAt(p.nextFresh, k);
    DistinctCardinality(added);
  }

  /** Uncancelled, PrewarmAsync has the effect of the synchronous Prewarm. */
  lemma UncancelledPrewarmAsyncIsPrewarm(p: Pool, count: int)
    ensures PrewarmAsync(p, count, NotCancelled) == Prewarm(p, count)
  {
  }

  /** A fresh pool prewarmed with 3 objects under a token cancelled after the
      second creation ends with 2 objects, both free and managed, and reports
      the cancellation. */
  lemma CancelledPrewarmScenario(key: AssetKey)
    ensures var p := NewAddressablePool(NonNull(key)).value;
            var s := PrewarmAsync(p, 3, CancelledAfter(2));
            && s.out == Err(OperationCanceled)
            && Count(s.pool) == 2 && |AllObjects(s.pool)| == 2 && RentedObjects(s.pool) == {}
  {
    var p := NewAddressablePool(NonNull(key)).value;
    CancelledPrewarmKeepsCompleted(p, 3, 2);
  }
}

=== FILE: async_pool_base.dfy ===
/** `AsyncObjectPoolBase<T>`: the generic asynchronous pool. A derived class
    supplies the creation (`CreateInstanceAsync`) and may override the hooks
    `OnRent`, `OnReturn` and `OnDestroy`; the base class fires its own hook
    first and then the instance's `IPoolCallbackReceiver` callback. Clear and
    Dispose are `PoolCore.Clear` and `PoolCore.Dispose`, with OnDestroy as the
    teardown call. */
module AsyncPoolBase {
  import opened PoolCore

  /** A derived pool as its base constructor leaves it. */
  function NewPool(): (p: Pool)
    ensures Pristine(p) && Valid(p) && p.source == Subclass
  {
    Empty(Subclass)
  }

  /** `RentAsync(token)`. A hit pops, rents and fires OnRent then the
      receiver's OnRent, without awaiting. A miss awaits the derived class's
      creation first, so a cancelled creation changes nothing; otherwise the
      new object is managed and rented before the same two callbacks. */
  function RentAsync(p: Pool, token: Cancellation): (s: Step<Handle>)
    ensures p.disposed ==> s == Step(p, Err(ObjectDisposed))
    ensures !p.disposed && |p.stack| > 0 ==>
              && s.out == Ok(Top(p.stack))
              && s.pool.stack == p.stack[..|p.stack| - 1]
              && s.pool.all == p.all
              && s.pool.nextFresh == p.nextFresh
    ensures !p.disposed && p.stack == [] && Abandons(token, 0) ==>
              s == Step(p, Err(OperationCanceled))
    ensures !p.disposed && p.stack == [] && !Abandons(token, 0) ==>
              && s.out.Ok?
              && s.pool.stack == []
              && s.pool.all == p.all + {s.out.value}
              && s.pool.nextFresh == p.nextFresh + 1
              && (Valid(p) ==> s.out.value !in p.all)
    ensures s.out.Ok? ==>
              && s.pool.rented == p.rented + {s.out.value}
              && s.pool.destroyed == p.destroyed
              && s.pool.disposed == p.disposed
              && s.pool.source == p.source
              && Announced(p, s.pool, [HookOnRent, ReceiverOnRent], s.out.value,
                           s.pool.stack, s.pool.rented, s.pool.all)
    ensures Valid(p) ==> Valid(s.pool)
  {
    if p.disposed then Step(p, Err(ObjectDisposed))
    else if |p.stack| > 0 then
      var h := Top(p.stack);
      Step(Notify(Notify(Take(Pop(p), h), HookOnRent, h), ReceiverOnRent, h), Ok(h))
    else if Abandons(token, 0) then
      Step(p, Err(OperationCanceled))
    else
      var h := NewObject(p);
      Step(Notify(Notify(Take(Adopt(p), h), HookOnRent, h), ReceiverOnRent, h), Ok(h))
  }

  /** `Return(obj)`: the disposed check comes first, then the null check. The
      object leaves the rented set, OnReturn and the receiver's OnReturn fire,
      and only then is it pushed, so both callbacks see it neither rented nor
      free. */
  function Return(p: Pool, obj: Nullable<Handle>): (s: Step<()>)
    ensures p.disposed ==> s == Step(p, Err(ObjectDisposed))
    ensures !p.disposed && obj.Null? ==> s == Step(p, Err(ArgumentNull("obj")))
    ensures !p.disposed && obj.NonNull? ==>
              && s.out == Ok(())
              && s.pool.stack == p.stack + [obj.value]
              && s.pool.rented == p.rented - {obj.value}
              && s.pool.all == p.all
              && s.pool.destroyed == p.destroyed
              && s.pool.nextFresh == p.nextFresh
              && s.pool.disposed == p.disposed
              && s.pool.source == p.source
              && Announced(p, s.pool, [HookOnReturn, ReceiverOnReturn], obj.value,
                           p.stack, s.pool.rented, s.pool.all)
    ensures Valid(p) && obj.NonNull? && obj.value in p.rented ==> Valid(s.pool)
  {
    if p.disposed then Step(p, Err(ObjectDisposed))
    else if obj.Null? then Step(p, Err(ArgumentNull("obj")))
    else
      var h := obj.value;
      Step(Push(Notify(Notify(Untake(p, h), HookOnReturn, h), ReceiverOnReturn, h), h), Ok(()))
  }

  /** `PrewarmAsync(count, token)`: each created instance is managed, announced
      through OnReturn and the receiver, and pushed before the next creation is
      awaited; a cancelled creation ends the loop and keeps what was committed. */
  function PrewarmAsync(p: Pool, count: int, token: Cancellation): (s: Step<()>)
    ensures p.disposed ==> s == Step(p, Err(ObjectDisposed))
    ensures !p.disposed ==>
              s.pool == Warm(p, Completed(token, if count > 0 then count else 0), ViaHooks)
    ensures !p.disposed ==>
              s.out == if Completed(token, if count > 0 then count else 0) < count
                       then Err(OperationCanceled) else Ok(())
  {
    if p.disposed then Step(p, Err(ObjectDisposed))
    else
      var n := if count > 0 then count else 0;
      WarmAsyncCommitsCompleted(p, 0, n, ViaHooks, token);
      WarmAsyncReportsCancellation(p, 0, n, ViaHooks, token);
      WarmAsync(p, 0, n, ViaHooks, token)
  }

  // ---------------------------------------------------------------------------
  // Properties

  /** Every guarded operation on a disposed pool fails with ObjectDisposed and
      changes nothing, even when the argument to Return is null. */
  lemma DisposedRejectsEverything(p: Pool, obj: Nullable<Handle>, count: int, token: Cancellation)
    requires p.disposed
    ensures RentAsync(p, token) == Step(p, Err(ObjectDisposed))
    ensures Return(p, obj) == Step(p, Err(ObjectDisposed))
    ensures PrewarmAsync(p, count, token) == Step(p, Err(ObjectDisposed))
  {
  }

  /** LIFO reuse: after Return(h) the next RentAsync hands back h, whatever
      the token, and the free stack is as it was. */
  lemma ReturnThenRentAsyncReuses(p: Pool, h: Handle, token: Cancellation)
    requires !p.disposed
    ensures RentAsync(Return(p, NonNull(h)).pool, token).out == Ok(h)
    ensures RentAsync(Return(p, NonNull(h)).pool, token).pool.stack == p.stack
    ensures h in p.rented ==> RentAsync(Return(p, NonNull(h)).pool, token).pool.rented == p.rented
  {
  }

  /** No rollback: a prewarm cancelled after k completed creations leaves the
      pool exactly as an uncancelled prewarm of k objects would. */
  lemma CancelledPrewarmIsShorterPrewarm(p: Pool, count: int, k: nat)
    requires k < count
    ensures PrewarmAsync(p, count, CancelledAfter(k)).pool == PrewarmAsync(p, k, NotCancelled).pool
    ensures !p.disposed ==> PrewarmAsync(p, count, CancelledAfter(k)).out == Err(OperationCanceled)
  {
  }

  /** `Count` is the height of the free stack, duplicates included: returning
      a rented object twice raises Count by two while the set of distinct free
      objects grows by one. */
  lemma CountIncludesDuplicates(p: Pool, h: Handle)
    requires Valid(p) && !p.disposed && h in p.rented
    ensures var twice := Return(Return(p, NonNull(h)).pool, NonNull(h)).pool;
            && Count(twice) == Count(p) + 2
            && |Elems(twice.stack)| == |Elems(p.stack)| + 1
  {
    var once := Return(p, NonNull(h)).pool;
    var twice := Return(once, NonNull(h)).pool;
    assert once.stack == p.stack + [h];
    assert twice.stack == once.stack + [h];
    assert h !in Elems(p.stack);
    PushTwiceElems(p.stack, h);
  }

  /** Pushing an object that is not free twice adds one distinct free object. */
  lemma PushTwiceElems(s: seq<Handle>, h: Handle)
    requires h !in Elems(s)
    ensures |Elems((s + [h]) + [h])| == |Elems(s)| + 1
  {
    ElemsPush(s, h);
    ElemsPush(s + [h], h);
    assert Elems(s) + {h} + {h} == Elems(s) + {h};
  }
}

=== FILE: game_object_pools.dfy ===
/** The synchronous pools: `GameObjectPool`, which clones a template, and
    `AddressableGameObjectPool`, which loads by key and waits for completion.
    Their state logic is line for line the same; they differ only in how an
    object is created and torn down, which the model leaves to the factory
    (`Source`) and records in the teardown log. */
module GameObjectPools {
  import opened PoolCore

  /** The four Rent overloads: no argument, a parent, a pose, a pose and a
      parent. Where the object ends up is a Unity transform effect the model
      leaves out, so the placement carries no payload. */
  datatype Placement = Unplaced | UnderParent | AtPose | AtPoseUnderParent

  // ---------------------------------------------------------------------------
  // Construction

  /** `new GameObjectPool(original)`. */
  function NewGameObjectPool(original: Nullable<ObjectId>): (r: Result<Pool>)
    ensures original.Null? <==> r == Err(ArgumentNull("original"))
    ensures r.Ok? ==> Pristine(r.value) && Valid(r.value) && r.value.source == CloneOf(original.value)
  {
    if original.Null? then Err(ArgumentNull("original")) else Ok(Empty(CloneOf(original.value)))
  }

  /** `new AddressableGameObjectPool(object key)`. */
  function NewAddressablePool(key: Nullable<AssetKey>): (r: Result<Pool>)
    ensures key.Null? <==> r == Err(ArgumentNull("key"))
    ensures r.Ok? ==> Pristine(r.value) && Valid(r.value) && r.value.source == LoadByKey(key.value)
  {
    if key.Null? then Err(ArgumentNull("key")) else Ok(Empty(LoadByKey(key.value)))
  }

  /** `new AddressableGameObjectPool(AssetReferenceGameObject reference)`: the
      pool loads by the reference's runtime key. */
  function NewAddressablePoolFromReference(reference: Nullable<AssetReference>): (r: Result<Pool>)
    ensures reference.Null? <==> r == Err(ArgumentNull("reference"))
    ensures r.Ok? ==> r == NewAddressablePool(NonNull(reference.value.runtimeKey))
  {
    if reference.Null? then Err(ArgumentNull("reference"))
    else Ok(Empty(LoadByKey(reference.value.runtimeKey)))
  }

  // ---------------------------------------------------------------------------
  // Operations

  /** `Rent`, all four overloads: reuse the most recently returned object if
      there is one, otherwise create a new one, which the pool manages from
      then on; either way the object is rented and PoolCallbackHelper is told
      once it is. */
  function Rent(p: Pool, placement: Placement): (s: Step<Handle>)
    ensures p.disposed ==> s == Step(p, Err(ObjectDisposed))
    ensures !p.disposed ==> s.out.Ok?
    ensures !p.disposed && |p.stack| > 0 ==>
              && s.out.value == Top(p.stack)
              && s.pool.stack == p.stack[..|p.stack| - 1]
              && s.pool.all == p.all
              && s.pool.nextFresh == p.nextFresh
    ensures !p.disposed && p.stack == [] ==>
              && s.pool.stack == []
              && s.pool.all == p.all + {s.out.value}
              && s.pool.nextFresh == p.nextFresh + 1
              && (Valid(p) ==> s.out.value !in p.all)
    ensures !p.disposed ==>
              && s.pool.rented == p.rented + {s.out.value}
              && s.pool.destroyed == p.destroyed
              && s.pool.disposed == p.disposed
              && s.pool.source == p.source
              && Announced(p, s.pool, [HelperOnRent], s.out.value, s.pool.stack, s.pool.rented, s.pool.all)
    ensures Valid(p) ==> Valid(s.pool)
  {
    if p.disposed then Step(p, Err(ObjectDisposed))
    else if |p.stack| > 0 then
      var h := Top(p.stack);
      Step(Notify(Take(Pop(p), h), HelperOnRent, h), Ok(h))
    else
      var h := NewObject(p);
      Step(Notify(Take(Adopt(p), h), HelperOnRent, h), Ok(h))
  }

  /** `Return`: the object leaves the rented set and goes on top of the free
      stack; nothing is torn down, and whether the object was rented at all is
      not checked. PoolCallbackHelper is told after the push. */
  function Return(p: Pool, h: Handle): (s: Step<()>)
    ensures p.disposed ==> s == Step(p, Err(ObjectDisposed))
    ensures !p.disposed ==>
              && s.out == Ok(())
              && s.pool.stack == p.stack + [h]
              && s.pool.rented == p.rented - {h}
              && s.pool.all == p.all
              && s.pool.destroyed == p.destroyed
              && s.pool.nextFresh == p.nextFresh
              && s.pool.disposed == p.disposed
              && s.pool.source == p.source
              && Announced(p, s.pool, [HelperOnReturn], h, s.pool.stack, s.pool.rented, s.pool.all)
    ensures Valid(p) && h in p.rented ==> Valid(s.pool)
  {
    if p.disposed then Step(p, Err(ObjectDisposed))
    else Step(Notify(Push(Untake(p, h), h), HelperOnReturn, h), Ok(()))
  }

  /** `Prewarm(count)`: create `count` objects up front, bypassing reuse, and
      push each one as if it had been returned. A count of zero or less
      creates nothing. */
  function Prewarm(p: Pool, count: int): (s: Step<()>)
    ensures p.disposed ==> s == Step(p, Err(ObjectDisposed))
    ensures !p.disposed ==> s.out == Ok(())
    ensures !p.disposed && count <= 0 ==> s.pool == p
    ensures !p.disposed && count > 0 ==>
              && Count(s.pool) == Count(p) + count
              && s.pool.stack[..|p.stack|] == p.stack
              && s.pool.all == p.all + Elems(s.pool.stack[|p.stack|..])
              && s.pool.rented == p.rented
              && s.pool.destroyed == p.destroyed
              && s.pool.disposed == p.disposed
              && s.pool.source == p.source
  {
    if p.disposed then Step(p, Err(ObjectDisposed))
    else
      var n := if count > 0 then count else 0;
      WarmShape(p, n, ViaHelper);
      assert Warm(p, n, ViaHelper).stack[..|p.stack|] == p.stack;
      assert Warm(p, n, ViaHelper).stack[|p.stack|..] == FreshRun(p.nextFresh, n);
      Step(Warm(p, n, ViaHelper), Ok(()))
  }

  // ---------------------------------------------------------------------------
  // Properties

  /** Prewarm keeps a valid pool valid, and every object it adds is new. */
  lemma PrewarmPreservesValid(p: Pool, count: int)
    requires Valid(p)
    ensures Valid(Prewarm(p, count).pool)
    ensures p.all !! Elems(Prewarm(p, count).pool.stack[|p.stack|..])
  {
    if !p.disposed {
      var n := if count > 0 then count else 0;
      WarmShape(p, n, ViaHelper);
      WarmPreservesValid(p, n, ViaHelper);
      assert Prewarm(p, count).pool.stack[|p.stack|..] == FreshRun(p.nextFresh, n);
    }
  }

  /** After Dispose every guarded operation fails with ObjectDisposed and
      leaves the pool as it was. (Clear and Dispose say the same in their own
      contracts.) */
  lemma DisposedRejectsEverything(p: Pool, h: Handle, placement: Placement, count: int)
    requires p.disposed
    ensures Rent(p, placement) == Step(p, Err(ObjectDisposed))
    ensures Return(p, h) == Step(p, Err(ObjectDisposed))
    ensures Prewarm(p, count) == Step(p, Err(ObjectDisposed))
  {
  }

  /** The four Rent overloads have the same effect on the pool. */
  lemma RentOverloadsAgree(p: Pool, a: Placement, b: Placement)
    ensures Rent(p, a) == Rent(p, b)
  {
  }

  /** LIFO reuse: renting right after returning an object hands back that
      object, and the free stack is as it was before the return. */
  lemma ReturnThenRentReuses(p: Pool, h: Handle, placement: Placement)
    requires !p.disposed
    ensures Rent(Return(p, h).pool, placement).out == Ok(h)
    ensures Rent(Return(p, h).pool, placement).pool.stack == p.stack
    ensures Rent(Return(p, h).pool, placement).pool.all == p.all
    ensures h in p.rented ==> Rent(Return(p, h).pool, placement).pool.rented == p.rented
  {
  }

  /** Returning what was just rented undoes the rent on a reuse, and leaves
      the new object alone on the free stack on a creation. */
  lemma RentThenReturnRestores(p: Pool, placement: Placement)
    requires Valid(p) && !p.disposed
    ensures var r := Rent(p, placement);
            var q := Return(r.pool, r.out.value).pool;
            && q.rented == p.rented
            && (|p.stack| > 0 ==> q.stack == p.stack && q.all == p.all)
            && (p.stack == [] ==> q.stack == [r.out.value] && q.all == p.all + {r.out.value})
  {
    var r := Rent(p, placement);
    var h := r.out.value;
    if |p.stack| > 0 {
      assert h in Elems(p.stack);
      assert r.pool.stack + [h] == p.stack;
    }
    assert h !in p.rented;
  }

  /** Return does not check that the object is rented. Returning a rented
      object twice leaves it on the free stack twice (Count grows by two) and
      the next rent then has it both rented and free. */
  lemma DoubleReturnBreaksDisjointness(p: Pool, h: Handle, placement: Placement)
    requires Valid(p) && !p.disposed && h in p.rented
    ensures var twice := Return(Return(p, h).pool, h).pool;
            && Count(twice) == Count(p) + 2
            && !Valid(twice)
            && var r := Rent(twice, placement);
               r.out == Ok(h) && h in r.pool.rented && h in Elems(r.pool.stack)
  {
    var twice := Return(Return(p, h).pool, h).pool;
    assert twice.stack[|twice.stack| - 2] == twice.stack[|twice.stack| - 1];
  }

  /** Return does not check where an object came from either. An object
      this pool did not create goes on the free stack without becoming
      managed, which no valid pool allows. */
  lemma ReturnForeignBreaksValid(p: Pool, f: nat)
    requires !p.disposed
    ensures var q := Return(p, Foreign(f)).pool;
            && Top(q.stack) == Foreign(f)
            && (Valid(p) ==> Foreign(f) !in q.all && q.rented == p.rented)
            && !Valid(q)
  {
    var q := Return(p, Foreign(f)).pool;
    assert Foreign(f) in Elems(q.stack);
  }

  /** A foreign object F returned to a new pool is handed out by the next
      Rent; the Rent after that misses and creates the pool's first object.
      Both are rented, and only the created one is managed. */
  lemma ForeignReturnScenario(original: ObjectId, f: nat)
    ensures var p0 := NewGameObjectPool(NonNull(original)).value;
            var p1 := Return(p0, Foreign(f)).pool;
            var r2 := Rent(p1, Unplaced);
            var r3 := Rent(r2.pool, Unplaced);
            && r2.out == Ok(Foreign(f))
            && r3.out == Ok(Own(0))
            && r3.pool.rented == {Foreign(f), Own(0)}
            && r3.pool.all == {Own(0)}
  {
  }

  /** Prewarming an empty pool with n objects leaves n free and n managed. */
  lemma PrewarmEmpty(p: Pool, n: nat)
    requires Pristine(p) && Valid(p)
    ensures Count(Prewarm(p, n).pool) == n
    ensures |AllObjects(Prewarm(p, n).pool)| == n
    ensures RentedObjects(Prewarm(p, n).pool) == {}
  {
    var q := Prewarm(p, n).pool;
    assert q.stack[|p.stack|..] == q.stack;
    PrewarmPreservesValid(p, n);
    DistinctCardinality(q.stack);
  }

  /** Rent on an emptied, undisposed pool (as Clear leaves it) succeeds and
      creates an object the pool did not manage. */
  lemma RentAfterClearCreates(p: Pool, placement: Placement)
    requires p.stack == [] && p.rented == {} && p.all == {} && !p.disposed
    ensures Rent(p, placement).out.Ok?
    ensures Rent(p, placement).pool.all == {Rent(p, placement).out.value}
    ensures Valid(Rent(p, placement).pool)
  {
  }

  /** A fresh pool: rent creates A; returning A frees it; renting again
      hands back A rather than a new object. */
  lemma RentReturnRentScenario(original: ObjectId)
    ensures var p0 := NewGameObjectPool(NonNull(original)).value;
            var r1 := Rent(p0, Unplaced);
            var a := r1.out.value;
            var p2 := Return(r1.pool, a).pool;
            var r3 := Rent(p2, Unplaced);
            && r1.pool.all == {a} && r1.pool.rented == {a} && r1.pool.stack == []
            && p2.all == {a} && p2.rented == {} && p2.stack == [a]
            && r3.out == Ok(a) && r3.pool.all == {a}
  {
  }
}

=== FILE: pool_core.dfy ===
/** The state machine shared by every uPools pool.

    Each pool class keeps the same four pieces of state: a LIFO stack of free
    objects, the set of rented objects, the set of every object it manages, and
    a one-shot disposed flag. This module models that state once, together with
    the two logs through which the outside world observes a pool (the teardown
    calls it makes and the callbacks it fires), the primitive steps the pool
    classes compose, the prewarm loops, and Clear / Dispose, which every class
    implements with the same code.
 */
module PoolCore {

  /** Identity of an object as one pool sees it. `Own(n)` is the n-th object
      this pool's factory created; the factory always hands out
      `Own(nextFresh)`, so an object it creates is never one the pool already
      knows. `Foreign(id)` is any other object a caller may pass to `Return`:
      a GameObject made elsewhere, or an object created by a different pool.
      A caller can only hold `Own(n)` with `n < nextFresh`, so an operation
      applied to any other `Own` handle models no program state. */
  datatype Handle = Own(serial: nat) | Foreign(id: nat)

  /** Identity of an object the pool does not manage (a template to clone). */
  type ObjectId = nat

  /** An opaque Addressables key. */
  type AssetKey = nat

  /** A C# reference that may be null. */
  datatype Nullable<+T> = Null | NonNull(value: T)

  /** An `AssetReferenceGameObject`: all the pool reads from it is its runtime key. */
  datatype AssetReference = AssetReference(runtimeKey: AssetKey)

  /** The exceptions a pool operation can end with. */
  datatype Error =
    | ObjectDisposed               // ObjectDisposedException, thrown by the disposed guard
    | ArgumentNull(param: string)  // ArgumentNullException naming the parameter
    | OperationCanceled            // an awaited creation observed its cancellation token

  datatype Result<+T> = Ok(value: T) | Err(error: Error)

  /** Where a pool's new objects come from; fixed at construction. */
  datatype Source =
    | CloneOf(original: ObjectId)  // Object.Instantiate of a template
    | LoadByKey(key: AssetKey)     // Addressables.InstantiateAsync of a key
    | Subclass                     // the abstract CreateInstanceAsync of a derived class

  /** The callbacks a pool fires. */
  datatype Callback =
    | HelperOnRent       // PoolCallbackHelper.InvokeOnRent
    | HelperOnReturn     // PoolCallbackHelper.InvokeOnReturn
    | HookOnRent         // the pool's own virtual OnRent
    | HookOnReturn       // the pool's own virtual OnReturn
    | ReceiverOnRent     // IPoolCallbackReceiver.OnRent, when the instance implements it
    | ReceiverOnReturn   // IPoolCallbackReceiver.OnReturn, when the instance implements it

  /** One fired callback: which, on what, and the pool state it could observe. */
  datatype Notice = Notice(
    callback: Callback,
    target: Handle,
    stackSeen: seq<Handle>,
    rentedSeen: set<Handle>,
    allSeen: set<Handle>)

  datatype Pool = Pool(
    source: Source,
    stack: seq<Handle>,       // the free objects; the top of the stack is the LAST element
    rented: set<Handle>,
    all: set<Handle>,         // every object created and not yet torn down
    disposed: bool,
    nextFresh: nat,           // the serial of the object the factory creates next
    destroyed: seq<Handle>,   // teardown calls (Destroy, ReleaseInstance or OnDestroy), in order
    notices: seq<Notice>)     // callbacks fired, in order

  /** What an operation leaves behind and how it ended. */
  datatype Step<+T> = Step(pool: Pool, out: Result<T>)

  /** A cancellation token as one call sees it: `CancelledAfter(k)` lets the
      first k creations awaited by the call complete and abandons the next one.
      A cancelled token stays cancelled, so every later creation is abandoned too. */
  datatype Cancellation = NotCancelled | CancelledAfter(completed: nat)

  /** Does the token abandon the creation with 0-based index `i` within the call? */
  predicate Abandons(token: Cancellation, i: nat)
  {
    token.CancelledAfter? && token.completed <= i
  }

  /** How a prewarmed object is announced: GameObject pools push it and then call
      PoolCallbackHelper; AsyncObjectPoolBase calls its hook and the receiver
      and only then pushes it. */
  datatype Dispatch = ViaHelper | ViaHooks

  /** A freshly constructed pool: empty and usable. */
  function Empty(source: Source): Pool
  {
    Pool(source, [], {}, {}, false, 0, [], [])
  }

  predicate Pristine(p: Pool)
  {
    p.stack == [] && p.rented == {} && p.all == {} && !p.disposed
  }

  function Elems(s: seq<Handle>): set<Handle>
  {
    set x | x in s
  }

  ghost predicate NoDuplicates(s: seq<Handle>)
  {
    forall i, j | 0 <= i < j < |s| :: s[i] != s[j]
  }

  /** The pool invariant: no object is free twice, no object is both free and
      rented, the managed set is exactly the free objects plus the rented ones
      (the one part the doc comments of IObjectPool spell out: "both available
      and rented"), and every managed object is one this pool created, before
      `nextFresh`. The code checks none of this; it holds as long as callers
      return only objects they rented. */
  ghost predicate Valid(p: Pool)
  {
    && NoDuplicates(p.stack)
    && Elems(p.stack) !! p.rented
    && p.all == Elems(p.stack) + p.rented
    && forall h | h in p.all :: h.Own? && h.serial < p.nextFresh
  }

  /** `q` extends `p`'s notices with one notice per callback in `cbs`, in that
      order, each about `h` and each observing the given state. */
  ghost predicate Announced(p: Pool, q: Pool, cbs: seq<Callback>, h: Handle,
                            stack: seq<Handle>, rented: set<Handle>, all: set<Handle>)
  {
    && |q.notices| == |p.notices| + |cbs|
    && q.notices[..|p.notices|] == p.notices
    && forall i | 0 <= i < |cbs| :: q.notices[|p.notices| + i] == Notice(cbs[i], h, stack, rented, all)
  }

  // ---------------------------------------------------------------------------
  // Primitive steps. The pool classes differ only in how they order these.

  function Top(s: seq<Handle>): Handle
    requires |s| > 0
  {
    s[|s| - 1]
  }

  /** `stack.TryPop` on a non-empty stack (the popped handle is `Top`). */
  function Pop(p: Pool): Pool
    requires |p.stack| > 0
  {
    p.(stack := p.stack[..|p.stack| - 1])
  }

  /** `stack.Push`. */
  function Push(p: Pool, h: Handle): Pool
  {
    p.(stack := p.stack + [h])
  }

  /** The object the factory creates next. */
  function NewObject(p: Pool): Handle
  {
    Own(p.nextFresh)
  }

  /** The factory creates `NewObject(p)` and the pool adds it to the managed set. */
  function Adopt(p: Pool): Pool
  {
    p.(all := p.all + {NewObject(p)}, nextFresh := p.nextFresh + 1)
  }

  /** `rentedItems.Add`. */
  function Take(p: Pool, h: Handle): Pool
  {
    p.(rented := p.rented + {h})
  }

  /** `rentedItems.Remove`. */
  function Untake(p: Pool, h: Handle): Pool
  {
    p.(rented := p.rented - {h})
  }

  /** Fire a callback on `h`; it observes the pool as it is at that point. */
  function Notify(p: Pool, cb: Callback, h: Handle): Pool
  {
    p.(notices := p.notices + [Notice(cb, h, p.stack, p.rented, p.all)])
  }


  // ---------------------------------------------------------------------------
  // Accessors. None of them checks the disposed flag.

  /** `Count`: the height of the free stack, duplicates included. */
  function Count(p: Pool): nat
  {
    |p.stack|
  }

  /** The free stack listed from the top down. */
  function TopDown(s: seq<Handle>): (r: seq<Handle>)
    ensures |r| == |s|
    ensures forall i | 0 <= i < |s| :: r[i] == s[|s| - 1 - i]
  {
    if s == [] then [] else TopDown(s[1..]) + [s[0]]
  }

  /** `GetAvailableObjects`: a Stack enumerates from the top down, so the first
      object listed is the one the next Rent pops. */
  function AvailableObjects(p: Pool): (r: seq<Handle>)
    ensures |r| == Count(p)
    ensures forall i | 0 <= i < |r| :: r[i] == p.stack[|p.stack| - 1 - i]
    ensures |r| > 0 ==> r[0] == Top(p.stack)
    ensures multiset(r) == multiset(p.stack)
    ensures Elems(r) == Elems(p.stack)
  {
    TopDownMultiset(p.stack);
    assert forall x :: x in TopDown(p.stack) <==> x in multiset(p.stack);
    TopDown(p.stack)
  }

  /** `GetRentedObjects`. */
  function RentedObjects(p: Pool): set<Handle>
  {
    p.rented
  }

  /** `GetAllObjects`. */
  function AllObjects(p: Pool): set<Handle>
  {
    p.all
  }

  // ---------------------------------------------------------------------------
  // Prewarming.

  /** One prewarm iteration: create an object, register it as managed, announce
      it as returned and push it, in the order the dispatch style prescribes. */
  function WarmOne(p: Pool, d: Dispatch): (q: Pool)
    ensures q == p.(stack := p.stack + [Own(p.nextFresh)], all := p.all + {Own(p.nextFresh)},
                    nextFresh := p.nextFresh + 1, notices := q.notices)
  {
    var h := NewObject(p);
    match d
    case ViaHelper => Notify(Push(Adopt(p), h), HelperOnReturn, h)
    case ViaHooks => Push(Notify(Notify(Adopt(p), HookOnReturn, h), ReceiverOnReturn, h), h)
  }

  /** The GameObject pools announce a prewarmed object once it is on the
      stack; AsyncObjectPoolBase fires OnReturn and then the receiver's
      OnReturn while the object is managed but not yet pushed. */
  lemma WarmOneAnnounces(p: Pool, d: Dispatch)
    ensures d == ViaHelper ==>
              var q := WarmOne(p, d);
              Announced(p, q, [HelperOnReturn], Own(p.nextFresh), q.stack, q.rented, q.all)
    ensures d == ViaHooks ==>
              var q := WarmOne(p, d);
              Announced(p, q, [HookOnReturn, ReceiverOnReturn], Own(p.nextFresh), p.stack, q.rented, q.all)
  {
  }

  /** The next `n` objects the factory creates from serial `from` on, in order. */
  function FreshRun(from: nat, n: nat): (r: seq<Handle>)
    ensures |r| == n
    decreases n
  {
    if n == 0 then [] else [Own(from)] + FreshRun(from + 1, n - 1)
  }

  /** The i-th object of a run has serial `from + i`. */
  lemma {:induction false} FreshRunAt(from: nat, n: nat)
    ensures forall i | 0 <= i < n :: FreshRun(from, n)[i] == Own(from + i)
    decreases n
  {
    if n > 0 {
      FreshRunAt(from + 1, n - 1);
      assert FreshRun(from, n) == [Own(from)] + FreshRun(from + 1, n - 1);
    }
  }

  /** Pushing one fresh handle and then a run of the following ones is
      pushing the whole run. */
  lemma RunExtends(stack: seq<Handle>, all: set<Handle>, from: nat, n: nat)
    requires n > 0
    ensures stack + FreshRun(from, n) == (stack + [Own(from)]) + FreshRun(from + 1, n - 1)
    ensures all + Elems(FreshRun(from, n)) == (all + {Own(from)}) + Elems(FreshRun(from + 1, n - 1))
  {
    assert FreshRun(from, n) == [Own(from)] + FreshRun(from + 1, n - 1);
  }

  /** The prewarm loop run `n` times: the next `n` fresh objects end up on top
      of the stack in creation order and in the managed set, and nothing is
      rented, torn down or disposed. */
  function Warm(p: Pool, n: nat, d: Dispatch): Pool
    decreases n
  {
    if n == 0 then p else Warm(WarmOne(p, d), n - 1, d)
  }

  /** Warm's effect, field by field: the three lemmas below, together. */
  lemma {:induction false} WarmShape(p: Pool, n: nat, d: Dispatch)
    ensures Warm(p, n, d).stack == p.stack + FreshRun(p.nextFresh, n)
    ensures Warm(p, n, d).all == p.all + Elems(FreshRun(p.nextFresh, n))
    ensures Warm(p, n, d).nextFresh == p.nextFresh + n
    ensures Warm(p, n, d).rented == p.rented && Warm(p, n, d).destroyed == p.destroyed
    ensures Warm(p, n, d).source == p.source && Warm(p, n, d).disposed == p.disposed
  {
    WarmFrame(p, n, d);
    WarmStack(p, n, d);
    WarmManaged(p, n, d);
  }

  /** What the prewarm loop leaves alone, and how far it advances the factory. */
  lemma {:induction false} WarmFrame(p: Pool, n: nat, d: Dispatch)
    ensures Warm(p, n, d).nextFresh == p.nextFresh + n
    ensures Warm(p, n, d).rented == p.rented && Warm(p, n, d).destroyed == p.destroyed
    ensures Warm(p, n, d).source == p.source && Warm(p, n, d).disposed == p.disposed
    decreases n
  {
    if n > 0 {
      WarmFrame(WarmOne(p, d), n - 1, d);
    }
  }

  /** The prewarm loop pushes the next `n` fresh objects in creation order. */
  lemma {:induction false} WarmStack(p: Pool, n: nat, d: Dispatch)
    ensures Warm(p, n, d).stack == p.stack + FreshRun(p.nextFresh, n)
    decreases n
  {
    if n == 0 {
      assert p.stack + FreshRun(p.nextFresh, n) == p.stack;
    } else {
      var q := WarmOne(p, d);
      WarmStack(q, n - 1, d);
      RunExtends(p.stack, p.all, p.nextFresh, n);
    }
  }

  /** The prewarm loop adds exactly the next `n` fresh objects to the managed set. */
  lemma {:induction false} WarmManaged(p: Pool, n: nat, d: Dispatch)
    ensures Warm(p, n, d).all == p.all + Elems(FreshRun(p.nextFresh, n))
    decreases n
  {
    if n == 0 {
      assert Elems(FreshRun(p.nextFresh, n)) == {};
    } else {
      var q := WarmOne(p, d);
      WarmManaged(q, n - 1, d);
      RunExtends(p.stack, p.all, p.nextFresh, n);
    }
  }

  /** How many creations a cancellable prewarm of `count` objects completes. */
  function Completed(token: Cancellation, count: nat): (k: nat)
    ensures k <= count
    ensures forall i: nat | i < k :: !Abandons(token, i)
    ensures k < count ==> Abandons(token, k)
  {
    if token.CancelledAfter? && token.completed < count then token.completed else count
  }

  /** Prewarming a valid pool pushes objects it did not manage before, each
      once, so the invariant survives. */
  lemma WarmPreservesValid(p: Pool, n: nat, d: Dispatch)
    requires Valid(p)
    ensures Valid(Warm(p, n, d))
    ensures p.all !! Elems(FreshRun(p.nextFresh, n))
  {
    WarmShape(p, n, d);
    FreshRunAt(p.nextFresh, n);
    var run := FreshRun(p.nextFresh, n);
    var stack := p.stack + run;
    forall i, j | 0 <= i < j < |stack|
      ensures stack[i] != stack[j]
    {
      if i < |p.stack| && j >= |p.stack| {
        assert stack[i] in p.all;
      }
    }
    assert Elems(stack) == Elems(p.stack) + Elems(run);
  }

  /** The cancellable prewarm loop, from iteration `done` on: each iteration
      awaits one creation, which the token may abandon, and commits the object
      before the next creation starts. Objects already committed stay. */
  function WarmAsync(p: Pool, done: nat, count: nat, d: Dispatch, token: Cancellation): (s: Step<()>)
    decreases count - done
  {
    if count <= done then Step(p, Ok(()))
    else if Abandons(token, done) then Step(p, Err(OperationCanceled))
    else WarmAsync(WarmOne(p, d), done + 1, count, d, token)
  }

  lemma WarmUnfold(p: Pool, n: nat, d: Dispatch)
    ensures Warm(p, n + 1, d) == Warm(WarmOne(p, d), n, d)
  {
  }

  /** The cancellable loop commits exactly the creations the token lets
      complete, as the uncancellable loop would. */
  lemma {:induction false} WarmAsyncCommitsCompleted(p: Pool, done: nat, count: nat, d: Dispatch, token: Cancellation)
    requires done <= Completed(token, count)
    ensures WarmAsync(p, done, count, d, token).pool == Warm(p, Completed(token, count) - done, d)
    decreases count - done
  {
    var k := Completed(token, count);
    if done < k {
      assert !Abandons(token, done);
      var r := WarmOne(p, d);
      var m: nat := k - (done + 1);
      calc {
        WarmAsync(p, done, count, d, token).pool;
        WarmAsync(r, done + 1, count, d, token).pool;
        { WarmAsyncCommitsCompleted(r, done + 1, count, d, token); }
        Warm(r, m, d);
        { WarmUnfold(p, m, d); }
        Warm(p, m + 1, d);
      }
    } else {
      assert WarmAsync(p, done, count, d, token).pool == p;
      assert Warm(p, 0, d) == p;
    }
  }

  /** The cancellable loop reports OperationCanceled exactly when the token
      cut it short. */
  lemma {:induction false} WarmAsyncReportsCancellation(p: Pool, done: nat, count: nat, d: Dispatch, token: Cancellation)
    requires done <= Completed(token, count)
    ensures WarmAsync(p, done, count, d, token).out
         == if Completed(token, count) < count then Err(OperationCanceled) else Ok(())
    decreases count - done
  {
    if done < Completed(token, count) {
      assert !Abandons(token, done);
      WarmAsyncReportsCancellation(WarmOne(p, d), done + 1, count, d, token);
    } else if done < count {
      assert Abandons(token, done);
    }
  }

  // ---------------------------------------------------------------------------
  // Facts about collections used by the invariant proofs.

  /** The distinct objects of a stack after a push. */
  lemma ElemsPush(s: seq<Handle>, h: Handle)
    ensures Elems(s + [h]) == Elems(s) + {h}
  {
    assert (s + [h])[|s|] == h;
    assert forall i | 0 <= i < |s| :: (s + [h])[i] == s[i];
  }

  lemma {:induction false} DistinctCardinality(s: seq<Handle>)
    requires NoDuplicates(s)
    ensures |Elems(s)| == |s|
  {
    if s != [] {
      var t := s[..|s| - 1];
      assert NoDuplicates(t);
      DistinctCardinality(t);
      assert s == t + [s[|s| - 1]];
      ElemsPush(t, s[|s| - 1]);
      assert s[|s| - 1] !in Elems(t);
    }
  }

  lemma {:induction false} DistinctMultiset(s: seq<Handle>)
    requires NoDuplicates(s)
    ensures multiset(s) == multiset(Elems(s))
  {
    if s != [] {
      var t := s[..|s| - 1];
      var x := s[|s| - 1];
      assert s == t + [x];
      assert NoDuplicates(t);
      DistinctMultiset(t);
      assert x !in Elems(t);
      ElemsPush(t, x);
      DisjointUnionMultiset(Elems(t), {x});
    }
  }

  lemma {:induction false} TopDownMultiset(s: seq<Handle>)
    ensures multiset(TopDown(s)) == multiset(s)
  {
    if s != [] {
      TopDownMultiset(s[1..]);
      assert s == [s[0]] + s[1..];
    }
  }

  lemma DisjointUnionMultiset(a: set<Handle>, b: set<Handle>)
    requires a !! b
    ensures multiset(a + b) == multiset(a) + multiset(b)
  {
    forall x
      ensures multiset(a + b)[x] == (multiset(a) + multiset(b))[x]
    {
      if x in a { assert x !in b; }
    }
  }

  /** On a valid pool, tearing down the stack from the top and then the rented
      set reaches every managed object exactly once. */
  lemma TeardownCoversManaged(p: Pool)
    requires Valid(p)
    ensures multiset(TopDown(p.stack)) + multiset(p.rented) == multiset(p.all)
  {
    TopDownMultiset(p.stack);
    DistinctMultiset(p.stack);
    DisjointUnionMultiset(Elems(p.stack), p.rented);
  }

  // ---------------------------------------------------------------------------
  // Clear and Dispose, identical in every pool class.

  /** `Clear`: tear down every free object, popping from the top, then every
      rented one (in the unspecified order of `rentedItems.ToArray()`), and
      empty all three collections. The pool stays usable. */
  method Clear(p: Pool) returns (s: Step<()>)
    ensures p.disposed ==> s == Step(p, Err(ObjectDisposed))
    ensures !p.disposed ==> s.out == Ok(())
    ensures !p.disposed ==> s.pool == p.(stack := [], rented := {}, all := {}, destroyed := s.pool.destroyed)
    ensures !p.disposed ==> |s.pool.destroyed| == |p.destroyed| + |p.stack| + |p.rented|
    ensures !p.disposed ==> s.pool.destroyed[..|p.destroyed| + |p.stack|] == p.destroyed + TopDown(p.stack)
    ensures !p.disposed ==> multiset(s.pool.destroyed[|p.destroyed| + |p.stack|..]) == multiset(p.rented)
    ensures !p.disposed && Valid(p) ==> multiset(s.pool.destroyed[|p.destroyed|..]) == multiset(p.all)
  {
    if p.disposed {
      return Step(p, Err(ObjectDisposed));
    }
    var fromStack := PopAll(p.stack);
    var fromRented := Enumerate(p.rented);
    assert |fromRented| == |multiset(fromRented)| == |multiset(p.rented)| == |p.rented|;
    var destroyed := p.destroyed + fromStack + fromRented;
    assert destroyed[..|p.destroyed| + |p.stack|] == p.destroyed + TopDown(p.stack);
    assert destroyed[|p.destroyed| + |p.stack|..] == fromRented;
    s := Step(p.(stack := [], rented := {}, all := {}, destroyed := destroyed), Ok(()));
    if Valid(p) {
      TeardownCoversManaged(p);
      assert destroyed[|p.destroyed|..] == fromStack + fromRented;
    }
  }

  /** `while (stack.TryPop(out var obj))`: the order in which Clear meets the
      free objects, the top first. */
  method PopAll(stack: seq<Handle>) returns (popped: seq<Handle>)
    ensures popped == TopDown(stack)
  {
    var rest := stack;
    popped := [];
    while |rest| > 0
      invariant |rest| <= |stack|
      invariant rest == stack[..|rest|]
      invariant popped == TopDown(stack[|rest|..])
      decreases |rest|
    {
      assert stack[|rest| - 1..][1..] == stack[|rest|..];
      popped := popped + [Top(rest)];
      rest := rest[..|rest| - 1];
    }
  }

  /** `foreach (var x in set.ToArray())`: some order in which Clear meets the
      rented objects, each exactly once. */
  method Enumerate(items: set<Handle>) returns (order: seq<Handle>)
    ensures multiset(order) == multiset(items)
  {
    var left := items;
    order := [];
    while left != {}
      invariant left <= items
      invariant multiset(order) + multiset(left) == multiset(items)
      decreases left
    {
      var x :| x in left;
      order := order + [x];
      assert multiset(left) == multiset(left - {x}) + multiset{x};
      left := left - {x};
    }
  }

  /** `Dispose`: refuse a disposed pool, otherwise Clear and set the one-shot
      flag, after which every guarded operation fails. */
  method Dispose(p: Pool) returns (s: Step<()>)
    ensures p.disposed ==> s == Step(p, Err(ObjectDisposed))
    ensures !p.disposed ==> s.out == Ok(())
    ensures !p.disposed ==> s.pool == p.(stack := [], rented := {}, all := {}, disposed := true, destroyed := s.pool.destroyed)
    ensures !p.disposed ==> |s.pool.destroyed| == |p.destroyed| + |p.stack| + |p.rented|
    ensures !p.disposed ==> s.pool.destroyed[..|p.destroyed| + |p.stack|] == p.destroyed + TopDown(p.stack)
    ensures !p.disposed ==> multiset(s.pool.destroyed[|p.destroyed| + |p.stack|..]) == multiset(p.rented)
    ensures !p.disposed && Valid(p) ==> multiset(s.pool.destroyed[|p.destroyed|..]) == multiset(p.all)
  {
    if p.disposed {
      return Step(p, Err(ObjectDisposed));
    }
    var cleared := Clear(p);
    s := Step(cleared.pool.(disposed := true), Ok(()));
  }
}
